=== FILE: README.md ===
# mockroom-platform: search-response decoding and mock-route append, in Dafny

The repository is a demo workspace: a React search UI, a proxy that forwards
movie searches to a public API, and a helper that appends routes to the
configuration document of a Mockoon mock server. This project models its two
pieces of stateable logic.

- **Search client** (`apps/dummy-product-ui/src/App.tsx`): `normalizeResults`,
  the decoder that turns any response body into the movie list
  (`ResultsNormalizer`), and the pure decisions around it
  (`SearchClient`): the blank-query guard and the request a search sends,
  the list a search leaves on screen, the mock generator's default query and
  request, and the image a movie card shows. `String.prototype.trim` and the
  lower-casing of the mode are in `Text`.
- **Mock-route append** (`packages/mockoon-helper/src/updateMockoonFile.ts`):
  `addMock`, a pure transform of the parsed environment document
  (`MockoonHelper.PushRoute`) over a map from file path to document
  (`MockoonHelper.AddMock`).

JSON values are the datatype `JsonValue.Json`
(`JNull | JBool | JNum | JStr | JArr | JObj`); JavaScript's `undefined` is
`Wrappers.None`. The JavaScript operators the code applies (`??`, member
read, `Array.isArray`, `typeof … === "object"`, truthiness) are spelled out in
`JsonValue` and the model uses them exactly where the code does.

`addMock` does an unconditional `routes.push`, so adding the same mock
twice gives two identical routes (`MockoonHelper.AddTwiceKeepsBoth`).

Files: `wrappers.dfy`, `json.dfy`, `text.dfy`, `normalizer.dfy`,
`search_client.dfy`, `mockoon_helper.dfy`.

## Model

| member | source | states |
|---|---|---|
| JsonValue.Coalesce | apps/dummy-product-ui/src/App.tsx:22 | `v ?? fallback`: undefined and null select the fallback, and every other value is kept |
| JsonValue.Get | apps/dummy-product-ui/src/App.tsx:27-36 | the member read `v.key` on a non-null value: an object's field when present, and undefined otherwise, including for arrays, strings, numbers and booleans |
| JsonValue.IsArray | apps/dummy-product-ui/src/App.tsx:27 | `Array.isArray`: true exactly for a list |
| JsonValue.IsTypeofObject | apps/dummy-product-ui/src/App.tsx:34 | `typeof v === "object"`: true for null, lists and objects |
| JsonValue.Truthy | apps/dummy-product-ui/src/App.tsx:252 | JavaScript truthiness: undefined, null, false, 0 and the empty string are falsy, and everything else is truthy |
| ResultsNormalizer.Classify | apps/dummy-product-ui/src/App.tsx:27-43 | the guard chain, evaluated with JavaScript's operators, selects the top-level `description` list exactly when there is one; otherwise `results.description` exactly when `results` is an object holding such a list; otherwise `results` exactly when it is a list |
| ResultsNormalizer.Normalize | apps/dummy-product-ui/src/App.tsx:21-46 | the four cases, stated on the raw JSON structure and in priority order: a top-level `description` list is returned unchanged; otherwise a list at `results.description` inside an object `results`; otherwise a `results` list; otherwise the empty list |
| ResultsNormalizer.Payload | apps/dummy-product-ui/src/App.tsx:22 | `data ?? {}`: missing or null input becomes the empty object, and any other value is kept as it is, including non-objects |
| ResultsNormalizer.NormalizeIsVerbatim | apps/dummy-product-ui/src/App.tsx:27-45 | the output is empty or one of the three recognised lists, taken verbatim with no element checked, filtered or rewritten |
| ResultsNormalizer.NonObjectIsEmpty | apps/dummy-product-ui/src/App.tsx:22-45 | a missing, null or non-object body (number, string, boolean, array) decodes to the empty list |
| ResultsNormalizer.DescriptionWins | apps/dummy-product-ui/src/App.tsx:27-43 | priority: a top-level `description` list wins over any `results` value, whether that is a list or an object holding a list |
| ResultsNormalizer.UpstreamBodyRoundTrip | apps/dummy-product-ui/src/App.tsx:27-29 | an upstream body `{description: xs, …}` decodes to exactly `xs` |
| ResultsNormalizer.ProxyEnvelope | apps/dummy-product-api/src/index.ts:26-30 | the proxy's envelope has exactly the keys `source`, `query` and `results`: the upstream host `imdb.iamidiotareyoutoo.com` under `source`, the query echoed under `query`, and the upstream body under `results` |
| ResultsNormalizer.ProxyEnvelopeRoundTrip | apps/dummy-product-ui/src/App.tsx:31-39 | the proxy's envelope around an upstream body with a `description` list decodes to that list |
| ResultsNormalizer.ResultsListRoundTrip | apps/dummy-product-ui/src/App.tsx:41-43 | a body with a `results` list and no top-level `description` list decodes to that list |
| Text.TrimStart | apps/dummy-product-ui/src/App.tsx:55 | the result is a suffix of the input, everything cut is whitespace, and the result does not start with whitespace |
| Text.TrimEnd | apps/dummy-product-ui/src/App.tsx:55 | the result is a prefix of the input, everything cut is whitespace, and the result does not end with whitespace |
| Text.Trim | apps/dummy-product-ui/src/App.tsx:55 | the result has no whitespace at either end, and it is empty exactly when the input is all whitespace |
| Text.TrimMeetsDefinition | apps/dummy-product-ui/src/App.tsx:55 | the result of `Trim` is an infix of the input whose margins are whitespace only and whose ends are not whitespace |
| Text.TrimCut | apps/dummy-product-ui/src/App.tsx:55 | cutting leading and then trailing whitespace gives such an infix, and the infix is empty exactly for all-whitespace input |
| Text.CutMargins | apps/dummy-product-ui/src/App.tsx:55 | cutting a whitespace prefix and then a whitespace suffix of the rest leaves an infix with whitespace-only margins |
| Text.CutEnds | apps/dummy-product-ui/src/App.tsx:55 | such an infix is empty only for all-whitespace input, and otherwise starts and ends on non-whitespace characters |
| Text.TrimOfUnique | apps/dummy-product-ui/src/App.tsx:55 | the trim of a string is unique, so `Trim` agrees with the declarative meaning of `trim` |
| Text.TrimOfTrimmed | apps/dummy-product-ui/src/App.tsx:121 | trimming a string with no whitespace at its ends returns it unchanged |
| Text.TrimIdempotent | apps/dummy-product-ui/src/App.tsx:121 | trimming twice is the same as trimming once |
| Text.LowerChar | apps/dummy-product-ui/src/App.tsx:6 | ASCII capitals move to their lower-case letter, and every other character is kept |
| Text.ToLower | apps/dummy-product-ui/src/App.tsx:6 | the result has the input's length and is lower-cased character by character |
| Text.ToLowerIdempotent | apps/dummy-product-ui/src/App.tsx:6 | lower-casing twice is the same as lower-casing once |
| SearchClient.OrDefault | apps/dummy-product-ui/src/App.tsx:4-9 | `env \|\| fallback`: an unset or empty variable selects the fallback, and any other value is kept |
| SearchClient.ApiBaseUrl | apps/dummy-product-ui/src/App.tsx:4-5 | the proxy base URL is the variable when it is set and non-empty, and `http://localhost:4001/api` otherwise |
| SearchClient.GeneratorBaseUrl | apps/dummy-product-ui/src/App.tsx:8-9 | the generator base URL is the variable when it is set and non-empty, and `http://localhost:5500` otherwise |
| SearchClient.ApiMode | apps/dummy-product-ui/src/App.tsx:6 | an unset or empty mode is `"real"`; a set mode is the variable lower-cased, so it never holds an ASCII capital |
| SearchClient.MockModeIsCaseInsensitive | apps/dummy-product-ui/src/App.tsx:6 | a set mode selects mock mode exactly when it lower-cases to `"mock"`, whatever its capitalisation, and the mode is already lower-case |
| SearchClient.SearchRequest | apps/dummy-product-ui/src/App.tsx:55-79 | no request exactly when the query is all whitespace; otherwise a GET to `<base>/movies` with `q` equal to the trimmed query (non-empty and trimmed), `_ts` present exactly when the mode is not `"mock"`, and no other parameter; no headers in mock mode, and exactly `Cache-Control` and `Pragma` set to `no-cache` otherwise |
| SearchClient.Search | apps/dummy-product-ui/src/App.tsx:54-93 | the request sent is exactly the one `SearchRequest` builds; a blank query sends nothing and leaves an empty list; otherwise one request is sent, and the list is the decoded response, or empty when the request fails |
| SearchClient.BlankSearchIgnoresNetwork | apps/dummy-product-ui/src/App.tsx:55-59 | a blank search has the same effect whatever the network would answer, and it clears the list |
| SearchClient.GeneratorQuery | apps/dummy-product-ui/src/App.tsx:121-122 | the generator query is the trimmed input, or `"dynamic"` when that is empty, so it is never empty and has no whitespace at its ends |
| SearchClient.DefaultGeneratorQueryIsTrimmed | apps/dummy-product-ui/src/App.tsx:122 | the default `"dynamic"` is non-empty and has no whitespace at its ends |
| SearchClient.GeneratorQueryIsStable | apps/dummy-product-ui/src/App.tsx:121-122 | trimming the generator query again changes nothing |
| SearchClient.GeneratorRequest | apps/dummy-product-ui/src/App.tsx:126-135 | the generator request goes to `<generator>/api/movies` with exactly `q` and `_ts` and the no-cache headers, whatever the mode |
| SearchClient.CacheBustedParams | apps/dummy-product-ui/src/App.tsx:127-130 | a parameter map built from `q` and `_ts` has exactly those two keys, each with its own value |
| SearchClient.CardImage | apps/dummy-product-ui/src/App.tsx:224-253 | computing the image fails exactly on a null element; otherwise the image is always truthy: the list's first entry, or the non-list `photo_url` itself, when truthy; the placeholder when `photo_url` is missing, falsy, an empty list or a list with a falsy first entry, and for a non-object element |
| SearchClient.CardImageIsStoredOrPlaceholder | apps/dummy-product-ui/src/App.tsx:224-253 | the image is never made up: it is `photo_url` itself, its first entry, or the placeholder |
| MockoonHelper.PushRoute | packages/mockoon-helper/src/updateMockoonFile.ts:5 | succeeds exactly when the document is an object with a `routes` list; the new list is the old one with the mock appended, and every other field keeps its value |
| MockoonHelper.AddMock | packages/mockoon-helper/src/updateMockoonFile.ts:3-8 | resolves with `true` exactly when the file is readable and has a `routes` list, and then only that file changes, by one appended route; a rejected call writes nothing; an unreadable file rejects with a read error; a readable document without a `routes` list rejects with the push error |
| MockoonHelper.PushKeepsExistingRoutes | packages/mockoon-helper/src/updateMockoonFile.ts:5 | the route count grows by exactly one, every existing route keeps its value and position, and the mock is last |
| MockoonHelper.AddTwiceKeepsBoth | packages/mockoon-helper/src/updateMockoonFile.ts:5 | no de-duplication: adding the same mock twice leaves two identical routes at the end |
| MockoonHelper.AddAllAppendsInOrder | packages/mockoon-helper/src/updateMockoonFile.ts:3-8 | once a document has a route list, any number of adds all succeed and append the mocks in call order, leaving the other fields unchanged |

## Left out

- Rendering failures other than the image read: React throws when a movie's `title` or `year` is a JSON object (App.tsx:269, 272). `CardImage` models only the `photo_url` read.
- React rendering, styling, hover handlers, the `loading` flag, `useState`/`useEffect` and the health check of the mock generator: UI and asynchronous state.
- The axios calls themselves: `Search` takes the network as a function `fetch` from request to outcome. `Date.now()` is the parameter `now`.
- Intermediate UI states: the list is cleared before the request is sent (App.tsx:61). `Search` gives only the list once the search has settled.
- The "Generate Mock Data" button is shown only in mock mode once the health check succeeds. That is rendering and is not modelled.
- Text.LowerChar: maps ASCII capitals only. `toLowerCase` also maps other capitals, for example `É` to `é`.
- Text.ToLower: lower-cases ASCII letters only. `toLowerCase` also maps other characters, for example the Kelvin sign to `k`.
- JSON numbers are integers. Floating point and `NaN` are not modelled.
- Object key order is not modelled: objects are maps. `writeJSON` keeps the order of non-numeric keys and puts integer-like keys first in ascending order; its text formatting (`spaces: 2`) is not modelled either.
- Member reads are modelled only for the named keys the code reads. Arrays and strings also have index and `length` properties, and none of the keys read here names one.
- MockoonHelper.AddMock: the mock is taken to be a JSON value, although `addMock` accepts any JavaScript value. Through `JSON.stringify`, an `undefined` or function mock is written as `null` in `routes`, and a BigInt or cyclic mock makes the write reject after the in-memory push, so the promise rejects and the file is unchanged. None of these cases is modelled.
- MockoonHelper.AddMock: a failing write is not modelled (disk full, permission denied). The store maps a path to its parsed document, and a path with no entry stands for every read or parse failure.
- The lost update between two concurrent `addMock` calls on one file is concurrency and is not modelled.
- The POST handler in `apps/mock-generator-api/src/index.ts` does the same `routes.push` as `addMock` and then runs a shell command. Its pure part is `PushRoute`; the process call and the HTTP status mapping are left out.
- The proxy server in `apps/dummy-product-api/src/index.ts` is an HTTP pass-through. Only its response envelope is modelled (`ProxyEnvelope`); its default query `'The Matrix'` and its error mapping are not.
- `apps/mockoon-server/ecosystem.config.cjs` is static process-manager configuration with no logic.

=== FILE: json.dfy ===
/** JSON values as the TypeScript code sees them after parsing, with the few
    JavaScript operators the code applies to them. */
module JsonValue {
  import opened Wrappers

  /** A parsed JSON value. Numbers are kept as integers. */
  datatype Json =
    | JNull
    | JBool(b: bool)
    | JNum(n: int)
    | JStr(s: string)
    | JArr(items: seq<Json>)
    | JObj(fields: map<string, Json>)

  /** `v ?? fallback`: both `undefined` and `null` select the fallback. */
  function Coalesce(v: Option<Json>, fallback: Json): (r: Json)
    ensures v.None? || v.value.JNull? ==> r == fallback
    ensures v.Some? && !v.value.JNull? ==> r == v.value
  {
    if v.None? || v.value.JNull? then fallback else v.value
  }

  /** The member read `v.key`. Reading a member of `null` throws, so callers
      must rule it out. Only objects carry the named keys this model reads;
      arrays, strings, numbers and booleans yield `undefined` for them. */
  function Get(v: Json, key: string): (r: Option<Json>)
    requires !v.JNull?
    ensures r.Some? <==> v.JObj? && key in v.fields
    ensures r.Some? ==> r.value == v.fields[key]
  {
    match v
    case JObj(fields) => if key in fields then Some(fields[key]) else None
    case _ => None
  }

  /** `Array.isArray(v)`. */
  predicate IsArray(v: Option<Json>) {
    v.Some? && v.value.JArr?
  }

  /** `typeof v === "object"`: true for null, arrays and objects. */
  predicate IsTypeofObject(v: Option<Json>) {
    v.Some? && (v.value.JNull? || v.value.JArr? || v.value.JObj?)
  }

  /** JavaScript truthiness: `undefined`, `null`, `false`, `0` and `""` are falsy. */
  predicate Truthy(v: Option<Json>) {
    match v
    case None => false
    case Some(JNull) => false
    case Some(JBool(b)) => b
    case Some(JNum(n)) => n != 0
    case Some(JStr(s)) => s != ""
    case Some(JArr(_)) => true
    case Some(JObj(_)) => true
  }
}

=== FILE: mockoon_helper.dfy ===
/** `addMock` of the mock-server helper package: read the mock server's
    environment document, append one route to its `routes` list, write the
    document back. File storage is modelled as a map from path to the parsed
    document; a path with no entry is a file that cannot be read or parsed. */
module MockoonHelper {
  import opened Wrappers
  import opened JsonValue

  /** Why `addMock` rejects. */
  datatype AddError =
    | ReadFailed      // the file is missing, unreadable or not JSON
    | RoutesNotArray  // `env.routes.push` is not callable: the document is not an object with a `routes` list

  /** Parsed JSON documents, by file path. */
  type Store = map<string, Json>

  /** The document is an object whose `routes` field is a list. */
  predicate HasRouteList(env: Json) {
    env.JObj? && "routes" in env.fields && env.fields["routes"].JArr?
  }

  function Routes(env: Json): seq<Json>
    requires HasRouteList(env)
  {
    env.fields["routes"].items
  }

  /** `env.routes.push(mock)` as a transform of the document. */
  function PushRoute(env: Json, mock: Json): (r: Result<Json, AddError>)
    ensures r.Success? <==> HasRouteList(env)
    ensures r.Failure? ==> r.error == RoutesNotArray
    ensures r.Success? ==> HasRouteList(r.value) && Routes(r.value) == Routes(env) + [mock]
    // the document keeps every other field as it was
    ensures r.Success? ==> r.value.fields.Keys == env.fields.Keys
    ensures r.Success? ==> forall k :: k in env.fields && k != "routes" ==> r.value.fields[k] == env.fields[k]
  {
    if env.JNull? then Failure(RoutesNotArray)
    else
      match Get(env, "routes")
      case Some(JArr(routes)) => Success(JObj(env.fields["routes" := JArr(routes + [mock])]))
      case _ => Failure(RoutesNotArray)
  }

  /** What `addMock` resolves or rejects with, and the files afterwards. */
  datatype AddOutcome = AddOutcome(result: Result<bool, AddError>, store: Store)

  /** `addMock(filePath, mockData)`. */
  function AddMock(store: Store, path: string, mock: Json): (out: AddOutcome)
    ensures out.result.Success? <==> path in store && HasRouteList(store[path])
    ensures out.result.Success? ==> out.result.value == true
    ensures path !in store ==> out.result == Failure(ReadFailed)
    ensures path in store && !HasRouteList(store[path]) ==> out.result == Failure(RoutesNotArray)
    // a rejected call writes nothing
    ensures out.result.Failure? ==> out.store == store
    ensures out.result.Success? ==>
      && out.store.Keys == store.Keys
      && HasRouteList(out.store[path])
      && Routes(out.store[path]) == Routes(store[path]) + [mock]
      && out.store[path].fields.Keys == store[path].fields.Keys
      && (forall k :: k in store[path].fields && k != "routes" ==> out.store[path].fields[k] == store[path].fields[k])
    // no other file is touched
    ensures forall p :: p in store && p != path ==> out.store[p] == store[p]
  {
    if path !in store then AddOutcome(Failure(ReadFailed), store)
    else
      match PushRoute(store[path], mock)
      case Success(env) => AddOutcome(Success(true), store[path := env])
      case Failure(e) => AddOutcome(Failure(e), store)
  }

  /** Appending keeps every existing route at its position and adds exactly
      one route at the end. */
  lemma PushKeepsExistingRoutes(env: Json, mock: Json)
    requires HasRouteList(env)
    ensures PushRoute(env, mock).Success?
    ensures var routes' := Routes(PushRoute(env, mock).value);
      && |routes'| == |Routes(env)| + 1
      && (forall i :: 0 <= i < |Routes(env)| ==> routes'[i] == Routes(env)[i])
      && routes'[|Routes(env)|] == mock
  {
  }

  /** No de-duplication: adding the same mock twice leaves two identical
      routes at the end. */
  lemma AddTwiceKeepsBoth(store: Store, path: string, mock: Json)
    requires path in store && HasRouteList(store[path])
    ensures var once := AddMock(store, path, mock);
      var twice := AddMock(once.store, path, mock);
      && twice.result == Success(true)
      && Routes(twice.store[path]) == Routes(store[path]) + [mock, mock]
  {
    var once := AddMock(store, path, mock);
    assert Routes(store[path]) + [mock] + [mock] == Routes(store[path]) + [mock, mock];
  }

  /** Adds the mocks one after another, stopping at the first rejection. */
  function AddAll(store: Store, path: string, mocks: seq<Json>): (out: AddOutcome)
    decreases |mocks|
  {
    if mocks == [] then AddOutcome(Success(true), store)
    else
      var first := AddMock(store, path, mocks[0]);
      if first.result.Failure? then first else AddAll(first.store, path, mocks[1..])
  }

  /** A sequence of successful adds appends the mocks in call order. Once a
      document has a route list every later add succeeds, since an append
      keeps `routes` a list. */
  lemma {:induction false} AddAllAppendsInOrder(store: Store, path: string, mocks: seq<Json>)
    requires path in store && HasRouteList(store[path])
    ensures var out := AddAll(store, path, mocks);
      && out.result == Success(true)
      && path in out.store && HasRouteList(out.store[path])
      && Routes(out.store[path]) == Routes(store[path]) + mocks
      && out.store[path].fields.Keys == store[path].fields.Keys
      && (forall k :: k in store[path].fields && k != "routes" ==> out.store[path].fields[k] == store[path].fields[k])
  {
    if mocks != [] {
      var first := AddMock(store, path, mocks[0]);
      AddAllAppendsInOrder(first.store, path, mocks[1..]);
      assert Routes(store[path]) + [mocks[0]] + mocks[1..] == Routes(store[path]) + mocks;
    }
  }
}

=== FILE: normalizer.dfy ===
/** `normalizeResults` of the search UI: decodes the untyped body of a movie
    search response into the list of movies to show. Three response shapes
    are recognised, checked in a fixed order:
      (a) the upstream body itself, `{description: [...]}`;
      (b) the proxy's envelope around it, `{results: {description: [...]}}`;
      (c) a bare list under `results`, `{results: [...]}`.
    Anything else yields the empty list. Elements are never inspected. */
module ResultsNormalizer {
  import opened Wrappers
  import opened JsonValue

  /** Which recognised shape a payload has, in priority order. */
  datatype Shape = TopDescription | NestedDescription | TopResults | Unrecognised

  /** `data ?? {}`: a missing or null body is read as the empty object. */
  function Payload(data: Option<Json>): (p: Json)
    ensures !p.JNull?
    ensures data.None? || data.value.JNull? ==> p == JObj(map[])
    ensures data.Some? && !data.value.JNull? ==> p == data.value
  {
    Coalesce(data, JObj(map[]))
  }

  /** The guard chain of the decoder, evaluated with JavaScript's operators on
      the coalesced payload. */
  function Classify(p: Json): (shape: Shape)
    requires !p.JNull?
    ensures shape == TopDescription <==> HasListAt(Some(p), "description")
    ensures shape == NestedDescription <==> !HasListAt(Some(p), "description") && HasNestedList(Some(p))
    ensures shape == TopResults <==>
      !HasListAt(Some(p), "description") && !HasNestedList(Some(p)) && HasListAt(Some(p), "results")
  {
    var results := Get(p, "results");
    if IsArray(Get(p, "description")) then TopDescription
    else if && Truthy(results)
            && !IsArray(results)
            && IsTypeofObject(results)
            && results != Some(JNull)
            && IsArray(Get(results.value, "description"))
    then NestedDescription
    else if IsArray(results) then TopResults
    else Unrecognised
  }

  /** `data` is an object whose field `key` holds a list. */
  predicate HasListAt(data: Option<Json>, key: string) {
    data.Some? && data.value.JObj? && key in data.value.fields && data.value.fields[key].JArr?
  }

  /** `data` is an object whose field `results` is an object whose field
      `description` holds a list. */
  predicate HasNestedList(data: Option<Json>) {
    && data.Some? && data.value.JObj? && "results" in data.value.fields
    && HasListAt(Some(data.value.fields["results"]), "description")
  }

  /** The movie list carried by a search response body. */
  function Normalize(data: Option<Json>): (r: seq<Json>)
    // (a) a top-level `description` list is returned unchanged
    ensures HasListAt(data, "description") ==> r == data.value.fields["description"].items
    // (b) otherwise a list at `results.description`
    ensures !HasListAt(data, "description") && HasNestedList(data)
      ==> r == data.value.fields["results"].fields["description"].items
    // (c) otherwise a list at `results`
    ensures !HasListAt(data, "description") && !HasNestedList(data) && HasListAt(data, "results")
      ==> r == data.value.fields["results"].items
    // anything else, including a missing, null or non-object body, is empty
    ensures !HasListAt(data, "description") && !HasNestedList(data) && !HasListAt(data, "results")
      ==> r == []
  {
    var p := Payload(data);
    match Classify(p)
    case TopDescription => Get(p, "description").value.items
    case NestedDescription => Get(Get(p, "results").value, "description").value.items
    case TopResults => Get(p, "results").value.items
    case Unrecognised => []
  }

  /** The decoder never invents or rewrites movies: its output is empty or
      one of the lists stored verbatim at the three recognised places. */
  lemma NormalizeIsVerbatim(data: Option<Json>)
    ensures var r := Normalize(data);
      || r == []
      || (HasListAt(data, "description") && r == data.value.fields["description"].items)
      || (HasNestedList(data) && r == data.value.fields["results"].fields["description"].items)
      || (HasListAt(data, "results") && r == data.value.fields["results"].items)
  {
  }

  /** A missing or null body, and any body that is not an object, decodes to
      the empty list. */
  lemma NonObjectIsEmpty(data: Option<Json>)
    requires data.None? || !data.value.JObj?
    ensures Normalize(data) == []
  {
  }

  /** Priority: a top-level `description` list wins over a `results` list
      and over a nested `results.description` list, whatever their contents. */
  lemma DescriptionWins(xs: seq<Json>, results: Json, rest: map<string, Json>)
    ensures Normalize(Some(JObj(rest["description" := JArr(xs)]["results" := results]))) == xs
  {
  }

  /** Round trip with the upstream search API: a body `{description: xs}`,
      whatever else it carries, decodes to exactly `xs`. */
  lemma UpstreamBodyRoundTrip(xs: seq<Json>, rest: map<string, Json>)
    ensures Normalize(Some(JObj(rest["description" := JArr(xs)]))) == xs
  {
  }

  /** The upstream host the proxy API names in its envelope. */
  const ProxySource := "imdb.iamidiotareyoutoo.com"

  /** The envelope the proxy API wraps around an upstream body. */
  function ProxyEnvelope(query: Json, upstream: Json): (e: Json)
    ensures e.JObj? && e.fields.Keys == {"source", "query", "results"}
    ensures e.fields["results"] == upstream
    ensures e.fields["source"] == JStr(ProxySource) && e.fields["query"] == query
  {
    JObj(map["source" := JStr(ProxySource), "query" := query, "results" := upstream])
  }

  /** Round trip with the proxy API: the proxy's envelope around an upstream
      body whose `description` is a list decodes to that list. */
  lemma ProxyEnvelopeRoundTrip(query: Json, xs: seq<Json>, rest: map<string, Json>)
    ensures Normalize(Some(ProxyEnvelope(query, JObj(rest["description" := JArr(xs)])))) == xs
  {
  }

  /** Round trip with a bare list under `results`: decodes to that list. */
  lemma ResultsListRoundTrip(xs: seq<Json>, rest: map<string, Json>)
    requires "description" !in rest || !rest["description"].JArr?
    ensures Normalize(Some(JObj(rest["results" := JArr(xs)]))) == xs
  {
  }
}

=== FILE: search_client.dfy ===
/** The pure decisions of the search UI: which request a search issues (if
    any), which list it ends up showing, what the mock generator is asked
    for, and which image a movie card shows. Network calls are a parameter
    (`fetch`) and the clock is a parameter (`now`). */
module SearchClient {
  import opened Wrappers
  import opened JsonValue
  import opened Text
  import ResultsNormalizer

  const DefaultApiBaseUrl := "http://localhost:4001/api"
  const DefaultGeneratorBaseUrl := "http://localhost:5500"
  const DefaultApiMode := "real"
  const MockMode := "mock"
  const DefaultGeneratorQuery := "dynamic"
  const PlaceholderImage := "https://via.placeholder.com/200x300?text=No+Image"

  /** `value || fallback` on an environment variable: unset and empty both
      select the fallback. */
  function OrDefault(value: Option<string>, fallback: string): (r: string)
    ensures value.Some? && value.value != "" ==> r == value.value
    ensures value.None? || value.value == "" ==> r == fallback
  {
    if value.Some? && value.value != "" then value.value else fallback
  }

  /** The proxy API's base URL, read from the environment. */
  function ApiBaseUrl(env: Option<string>): (url: string)
    ensures url != []
    ensures env.None? || env.value == "" ==> url == DefaultApiBaseUrl
    ensures env.Some? && env.value != "" ==> url == env.value
  {
    OrDefault(env, DefaultApiBaseUrl)
  }

  /** The mock generator's base URL, read from the environment. */
  function GeneratorBaseUrl(env: Option<string>): (url: string)
    ensures url != []
    ensures env.None? || env.value == "" ==> url == DefaultGeneratorBaseUrl
    ensures env.Some? && env.value != "" ==> url == env.value
  {
    OrDefault(env, DefaultGeneratorBaseUrl)
  }

  /** The data-source mode, read from the environment and lower-cased. */
  function ApiMode(env: Option<string>): (m: string)
    ensures env.None? || env.value == "" ==> m == DefaultApiMode
    ensures forall i :: 0 <= i < |m| ==> !('A' <= m[i] <= 'Z')
    ensures env.Some? && env.value != "" ==> m == ToLower(env.value)
  {
    ToLower(OrDefault(env, DefaultApiMode))
  }

  /** The mode is case-insensitive: any spelling of `mock` selects mock mode,
      and lower-casing the mode again changes nothing. */
  lemma MockModeIsCaseInsensitive(env: string)
    requires env != ""
    ensures ApiMode(Some(env)) == MockMode <==> ToLower(env) == MockMode
    ensures ToLower(ApiMode(Some(env))) == ApiMode(Some(env))
  {
    ToLowerIdempotent(env);
  }

  /** A request parameter value: a string or a number. */
  datatype Param = PStr(s: string) | PNum(n: int)

  /** An HTTP GET request: URL, query parameters and headers. */
  datatype Request = Request(url: string, params: map<string, Param>, headers: map<string, string>)

  /** The headers that ask every cache on the way to revalidate. */
  const NoCacheHeaders: map<string, string> := map["Cache-Control" := "no-cache", "Pragma" := "no-cache"]

  /** The request a search issues, or none when the trimmed query is empty.
      `now` stands for the clock reading used as a cache-busting parameter. */
  function SearchRequest(query: string, mode: string, baseUrl: string, now: int): (r: Option<Request>)
    ensures r.None? <==> AllWhitespace(query)
    ensures r.Some? ==> r.value.url == baseUrl + "/movies"
    ensures r.Some? ==> "q" in r.value.params && r.value.params["q"] == PStr(Trim(query))
    ensures r.Some? ==> r.value.params["q"].s != [] && IsTrimmed(r.value.params["q"].s)
    ensures r.Some? ==> ("_ts" in r.value.params <==> mode != MockMode)
    ensures r.Some? ==> r.value.params.Keys <= {"q", "_ts"}
    ensures r.Some? && mode == MockMode ==> r.value.headers == map[]
    ensures r.Some? && mode != MockMode ==> r.value.headers == NoCacheHeaders
  {
    var q := Trim(query);
    if q == [] then None
    else
      var params := if mode != MockMode then map["q" := PStr(q), "_ts" := PNum(now)] else map["q" := PStr(q)];
      var headers := if mode == MockMode then map[] else NoCacheHeaders;
      Some(Request(baseUrl + "/movies", params, headers))
  }

  /** How an outbound request settles: the response body, or a rejection
      (network failure, error status). A body that is not JSON arrives as
      a string. */
  datatype FetchResult = Fetched(data: Option<Json>) | FetchFailed

  /** What a search does: the request it sends, if any, and the movie list
      it leaves on screen once it has settled. */
  datatype SearchEffect = SearchEffect(request: Option<Request>, movies: seq<Json>)

  /** `handleSearch`: a blank query clears the list and sends nothing; any
      other query clears the list, sends one request and shows the decoded
      response, or an empty list on failure. */
  function Search(query: string, mode: string, baseUrl: string, now: int, fetch: Request -> FetchResult): (e: SearchEffect)
    ensures e.request == SearchRequest(query, mode, baseUrl, now)
    ensures e.request.None? <==> AllWhitespace(query)
    ensures e.request.None? ==> e.movies == []
    ensures e.request.Some? && fetch(e.request.value).FetchFailed? ==> e.movies == []
    ensures e.request.Some? && fetch(e.request.value).Fetched?
      ==> e.movies == ResultsNormalizer.Normalize(fetch(e.request.value).data)
  {
    match SearchRequest(query, mode, baseUrl, now)
    case None => SearchEffect(None, [])
    case Some(req) =>
      match fetch(req)
      case Fetched(data) => SearchEffect(Some(req), ResultsNormalizer.Normalize(data))
      case FetchFailed => SearchEffect(Some(req), [])
  }

  /** A blank search never consults the network: its effect is the same
      whatever the network would have answered. */
  lemma BlankSearchIgnoresNetwork(query: string, mode: string, baseUrl: string, now: int,
                                  fetch1: Request -> FetchResult, fetch2: Request -> FetchResult)
    requires AllWhitespace(query)
    ensures Search(query, mode, baseUrl, now, fetch1) == Search(query, mode, baseUrl, now, fetch2)
    ensures Search(query, mode, baseUrl, now, fetch1).movies == []
  {
  }

  /** The query sent to the mock generator: the trimmed input, or
      `"dynamic"` when that is empty. It is never empty and never has
      whitespace at its ends. */
  function GeneratorQuery(query: string): (q: string)
    ensures q != [] && IsTrimmed(q)
    ensures !AllWhitespace(query) ==> q == Trim(query)
    ensures AllWhitespace(query) ==> q == DefaultGeneratorQuery
  {
    var raw := Trim(query);
    if raw != [] then raw
    else
      DefaultGeneratorQueryIsTrimmed();
      DefaultGeneratorQuery
  }

  lemma DefaultGeneratorQueryIsTrimmed()
    ensures DefaultGeneratorQuery != [] && IsTrimmed(DefaultGeneratorQuery)
  {
    assert DefaultGeneratorQuery[0] == 'd' && DefaultGeneratorQuery[6] == 'c';
  }

  /** Trimming the generator query again changes nothing. */
  lemma GeneratorQueryIsStable(query: string)
    ensures Trim(GeneratorQuery(query)) == GeneratorQuery(query)
  {
    TrimOfTrimmed(GeneratorQuery(query));
  }

  /** `handleGenerateMockData`'s request: always cache-busted, whatever the
      mode. */
  function GeneratorRequest(query: string, generatorBaseUrl: string, now: int): (r: Request)
    ensures r.url == generatorBaseUrl + "/api/movies"
    ensures r.params.Keys == {"q", "_ts"}
    ensures r.params["q"] == PStr(GeneratorQuery(query)) && r.params["_ts"] == PNum(now)
    ensures r.headers == NoCacheHeaders
  {
    var params := map["q" := PStr(GeneratorQuery(query)), "_ts" := PNum(now)];
    CacheBustedParams(PStr(GeneratorQuery(query)), PNum(now));
    assert params.Keys == {"q", "_ts"};
    Request(generatorBaseUrl + "/api/movies", params, NoCacheHeaders)
  }

  /** The two keys of a cache-busted parameter map are distinct. */
  lemma CacheBustedParams(q: Param, ts: Param)
    ensures var m := map["q" := q, "_ts" := ts];
      m.Keys == {"q", "_ts"} && m["q"] == q && m["_ts"] == ts
  {
    assert "q"[0] != "_ts"[0];
  }

  /** Computing a card's image reads `movie.photo_url`, which throws on a
      null element. */
  datatype RenderError = NullMovie

  /** The image a movie card shows: the first entry when `photo_url` is a
      list, otherwise `photo_url` itself, and the placeholder when that is
      falsy (missing, null, empty string, empty list, ...). */
  function CardImage(movie: Json): (r: Result<Json, RenderError>)
    ensures r.Failure? <==> movie.JNull?
    ensures r.Success? ==> Truthy(Some(r.value))
    ensures r.Success? && movie.JObj? && "photo_url" in movie.fields ==>
      var p := movie.fields["photo_url"];
      && (p.JArr? && |p.items| > 0 && Truthy(Some(p.items[0])) ==> r.value == p.items[0])
      && (!p.JArr? && Truthy(Some(p)) ==> r.value == p)
    // a present but falsy `photo_url`, an empty list or a falsy first entry
    // shows the placeholder
    ensures r.Success? && movie.JObj? && "photo_url" in movie.fields ==>
      var p := movie.fields["photo_url"];
      (if p.JArr? then |p.items| == 0 || !Truthy(Some(p.items[0])) else !Truthy(Some(p)))
      ==> r.value == JStr(PlaceholderImage)
    // so does a movie without `photo_url`, or one that is not an object
    ensures r.Success? && !(movie.JObj? && "photo_url" in movie.fields) ==>
      r.value == JStr(PlaceholderImage)
  {
    if movie.JNull? then Failure(NullMovie)
    else
      var photo := Get(movie, "photo_url");
      var imageUrl := if IsArray(photo) then (if |photo.value.items| > 0 then Some(photo.value.items[0]) else None) else photo;
      Success(if Truthy(imageUrl) then imageUrl.value else JStr(PlaceholderImage))
  }

  /** The card never makes up an image: it shows a value stored in the
      movie's `photo_url` (the value itself or its first entry), or the
      placeholder. */
  lemma CardImageIsStoredOrPlaceholder(movie: Json)
    requires !movie.JNull?
    ensures var r := CardImage(movie).value;
      || r == JStr(PlaceholderImage)
      || (movie.JObj? && "photo_url" in movie.fields && r == movie.fields["photo_url"])
      || (movie.JObj? && "photo_url" in movie.fields && movie.fields["photo_url"].JArr?
          && |movie.fields["photo_url"].items| > 0 && r == movie.fields["photo_url"].items[0])
  {
  }
}

=== FILE: text.dfy ===
/** The string operations the search client applies to user input and
    configuration: ECMAScript `String.prototype.trim` and `toLowerCase`. */
module Text {

  /** The characters `trim` removes: ECMAScript's WhiteSpace (TAB, VT, FF,
      SPACE, NO-BREAK SPACE, ZERO WIDTH NO-BREAK SPACE and the space
      separators of category Zs) and LineTerminator (LF, CR, LS, PS). */
  const WhitespaceChars: set<char> := {
    '\t', '\n', '\U{B}', '\U{C}', '\r', ' ', '\U{A0}',
    '\U{1680}', '\U{2000}', '\U{2001}', '\U{2002}', '\U{2003}', '\U{2004}', '\U{2005}',
    '\U{2006}', '\U{2007}', '\U{2008}', '\U{2009}', '\U{200A}',
    '\U{2028}', '\U{2029}', '\U{202F}', '\U{205F}', '\U{3000}', '\U{FEFF}'
  }

  predicate IsWhitespace(c: char) {
    c in WhitespaceChars
  }

  predicate AllWhitespace(s: string) {
    forall i :: 0 <= i < |s| ==> IsWhitespace(s[i])
  }

  /** Neither end of `s` is whitespace. */
  predicate IsTrimmed(s: string) {
    s == [] || (!IsWhitespace(s[0]) && !IsWhitespace(s[|s| - 1]))
  }

  /** Every character of `s` outside the index range `[i, j)` is whitespace. */
  predicate WhitespaceOutside(s: string, i: int, j: int) {
    forall k :: 0 <= k < |s| && !(i <= k < j) ==> IsWhitespace(s[k])
  }

  /** `r` is `s` with a whitespace-only prefix and suffix cut off, and no
      whitespace left at either end: the declarative meaning of `trim`. */
  ghost predicate IsTrimOf(s: string, r: string) {
    && IsTrimmed(r)
    && exists i, j :: 0 <= i <= j <= |s| && r == s[i..j] && WhitespaceOutside(s, i, j)
  }

  /** Removes leading whitespace. */
  function TrimStart(s: string): (r: string)
    ensures |r| <= |s| && r == s[|s| - |r|..]
    ensures forall k :: 0 <= k < |s| - |r| ==> IsWhitespace(s[k])
    ensures r == [] || !IsWhitespace(r[0])
  {
    if |s| > 0 && IsWhitespace(s[0]) then
      var r := TrimStart(s[1..]);
      assert s[1..][|s| - 1 - |r|..] == s[|s| - |r|..];
      r
    else
      s
  }

  /** Removes trailing whitespace. */
  function TrimEnd(s: string): (r: string)
    ensures |r| <= |s| && r == s[..|r|]
    ensures forall k :: |r| <= k < |s| ==> IsWhitespace(s[k])
    ensures r == [] || !IsWhitespace(r[|r| - 1])
  {
    if |s| > 0 && IsWhitespace(s[|s| - 1]) then
      var r := TrimEnd(s[..|s| - 1]);
      assert s[..|s| - 1][..|r|] == s[..|r|];
      r
    else
      s
  }

  /** `s.trim()`. */
  function Trim(s: string): (r: string)
    ensures IsTrimmed(r)
    ensures r == [] <==> AllWhitespace(s)
  {
    var t := TrimStart(s);
    var r := TrimEnd(t);
    TrimCut(s, t, r);
    r
  }

  /** `Trim` computes the declarative trim. */
  lemma TrimMeetsDefinition(s: string)
    ensures IsTrimOf(s, Trim(s))
  {
    TrimCut(s, TrimStart(s), TrimEnd(TrimStart(s)));
  }

  /** Cutting the leading and then the trailing whitespace yields the trim. */
  lemma TrimCut(s: string, t: string, r: string)
    // what TrimStart promises of t
    requires |t| <= |s| && t == s[|s| - |t|..]
    requires forall k :: 0 <= k < |s| - |t| ==> IsWhitespace(s[k])
    requires t == [] || !IsWhitespace(t[0])
    // what TrimEnd promises of r
    requires |r| <= |t| && r == t[..|r|]
    requires forall k :: |r| <= k < |t| ==> IsWhitespace(t[k])
    requires r == [] || !IsWhitespace(r[|r| - 1])
    ensures IsTrimOf(s, r)
    ensures r == [] <==> AllWhitespace(s)
  {
    var i := |s| - |t|;
    CutMargins(s, t, r, i);
    assert IsTrimmed(r) by {
      if r != [] {
        assert r[0] == t[0];
      }
    }
    CutEnds(s, i, i + |r|);
  }

  /** A whitespace-only prefix of `s` and then a whitespace-only suffix of
      the rest cut off leave an infix with whitespace-only margins. */
  lemma CutMargins(s: string, t: string, r: string, i: int)
    requires 0 <= i <= |s| && t == s[i..]
    requires forall k :: 0 <= k < i ==> IsWhitespace(s[k])
    requires |r| <= |t| && r == t[..|r|]
    requires forall k :: |r| <= k < |t| ==> IsWhitespace(t[k])
    ensures r == s[i..i + |r|] && WhitespaceOutside(s, i, i + |r|)
  {
    forall k | i + |r| <= k < |s|
      ensures IsWhitespace(s[k])
    {
      assert s[k] == t[k - i];
    }
  }

  /** A cut with whitespace-only margins and no whitespace at its ends is
      empty exactly for all-whitespace strings, and otherwise starts and ends
      on the first and last non-whitespace characters. */
  lemma CutEnds(s: string, i: int, j: int)
    requires 0 <= i <= j <= |s| && WhitespaceOutside(s, i, j) && IsTrimmed(s[i..j])
    ensures s[i..j] == [] <==> AllWhitespace(s)
    ensures s[i..j] != [] ==> !IsWhitespace(s[i]) && !IsWhitespace(s[j - 1])
  {
    if s[i..j] != [] {
      assert s[i] == s[i..j][0];
      assert s[j - 1] == s[i..j][j - 1 - i];
    }
  }

  /** The trim of a string is unique: any two cuts with whitespace-only
      margins and no whitespace at their ends agree. */
  lemma TrimOfUnique(s: string, r1: string, r2: string)
    requires IsTrimOf(s, r1) && IsTrimOf(s, r2)
    ensures r1 == r2
  {
    var i1, j1 :| 0 <= i1 <= j1 <= |s| && r1 == s[i1..j1] && WhitespaceOutside(s, i1, j1);
    var i2, j2 :| 0 <= i2 <= j2 <= |s| && r2 == s[i2..j2] && WhitespaceOutside(s, i2, j2);
    CutEnds(s, i1, j1);
    CutEnds(s, i2, j2);
    assert r1 != [] ==> i1 == i2 && j1 == j2;
  }

  /** Trimming a string that is already trimmed changes nothing. */
  lemma TrimOfTrimmed(s: string)
    requires IsTrimmed(s)
    ensures Trim(s) == s
  {
    assert s == s[0..|s|] && WhitespaceOutside(s, 0, |s|);
    TrimMeetsDefinition(s);
    TrimOfUnique(s, Trim(s), s);
  }

  /** `trim` is idempotent. */
  lemma TrimIdempotent(s: string)
    ensures Trim(Trim(s)) == Trim(s)
  {
    TrimOfTrimmed(Trim(s));
  }

  /** ASCII lower-casing of one character. */
  function LowerChar(c: char): (d: char)
    ensures 'A' <= c <= 'Z' ==> d as int == c as int + 32
    ensures !('A' <= c <= 'Z') ==> d == c
  {
    if 'A' <= c <= 'Z' then (c as int + 32) as char else c
  }

  /** `s.toLowerCase()`, restricted to the ASCII letters. */
  function ToLower(s: string): (r: string)
    ensures |r| == |s|
    ensures forall i :: 0 <= i < |r| ==> r[i] == LowerChar(s[i])
  {
    if s == [] then [] else [LowerChar(s[0])] + ToLower(s[1..])
  }

  /** Lower-casing is idempotent. */
  lemma {:induction false} ToLowerIdempotent(s: string)
    ensures ToLower(ToLower(s)) == ToLower(s)
  {
    if s != [] {
      ToLowerIdempotent(s[1..]);
      assert ToLower(s)[1..] == ToLower(s[1..]);
    }
  }
}

=== FILE: wrappers.dfy ===
/** Option and Result datatypes shared by the whole model. */
module Wrappers {

  /** A value that may be absent; `None` also stands for JavaScript's `undefined`. */
  datatype Option<+T> = None | Some(value: T)

  /** The outcome of an operation that can throw or reject. */
  datatype Result<+R, +E> = Success(value: R) | Failure(error: E)
}
